=== FILE: README.md ===
# inc-semver-action: version resolution, modelled in Dafny

This project models how the `inc-semver-action` GitHub action decides the next version of one
package in a monorepo. The package's tags are named `<name>@X.Y.Z`. The action finds the latest
such tag and takes the commits of the package directory made since that tag. It classifies the
commit messages into a release type and increments the tag's version by that type. The model
keeps the action's decision logic. Every network and file call is replaced by plain input
values: the tag listing is a sequence of pages, the commit history is a newest-first sequence of
commits, and the manifest is a name and a version string.

Modules, one per concern:

- `Wrappers`: `Option`, standing for the code's `null`.
- `Text`: `startsWith`, first-occurrence search, `replace(p, '')`, ASCII lower-casing.
- `SemVer`: `X.Y.Z` versions as triples of naturals. Precedence follows section 11 of Semantic
  Versioning 2.0.0 and the increments follow sections 6-8. Rendering and strict reading of the
  text form are proved inverse.
- `History`: commits, and the cut-off of the history at the tagged commit (`getCommits`).
- `Classifier`: `determineReleaseType`, as in `src/ver.js` and its copy in `src/action.js`.
- `Tags`: `findLatestTag`. It accumulates pages up to the first empty one, filters them by
  prefix, and picks the tag with the highest version.
- `Action`: the main body. It derives the prefix `name@`, handles the no-tag case and the early
  return, and computes the next version and tag.

Points where the code differs from the usual conventional-commit reading:

- The type regex `/^(\w+): /i` has no scope group, and it is anchored at the start of the whole
  message. So `feat(ui): x` has no type, and a `feat: ` on a later line is not seen
  (`Classifier.ScopedHeaderHasNoType`, `Classifier.TypeTokenMatchesRegex`).
- When the commits call for no release, the run returns before any output is set. `Action.Run`
  gives `None` in that case.
- `\w` without the `u` flag is ASCII letters, digits and `_`.
- `^` under the `m` flag matches at the start and after LF, CR, U+2028 and U+2029.

## Model

| member | source | states |
|---|---|---|
| SemVer.Compare | src/action.js:53 | the comparison is -1, 0 or 1, and 0 exactly for equal versions |
| SemVer.CompareIsTotalOrder | src/action.js:53 | precedence is antisymmetric, total and transitive, so "highest version" is well defined |
| SemVer.Inc | src/action.js:144 | the incremented version has strictly higher precedence than the input |
| SemVer.IncIsLeastBump | src/action.js:144 | the increment by t is the least higher version that changes the component t names (or a higher one): the lower components reset to 0 |
| SemVer.Render | src/action.js:144 | the text of the next version reads back, under the strict reader, as the version it renders |
| SemVer.RenderParse | src/action.js:51-53 | a version text that reads as a version is exactly that version's rendering |
| History.CommitsSince | src/action.js:81-91 | the result is a prefix of the history, holds no commit with the tag's hash, and ends right before the first such commit or at the end of the history |
| History.GetCommits | src/action.js:81-91 | the for/break loop returns that same cut-off of the history |
| History.CutOffIsUnique | src/action.js:83-91 | at most one list is the cut-off of a history at a hash |
| History.CutOffWithoutTaggedCommit | src/action.js:83-89 | when no commit has the tag's hash, the whole history is returned |
| History.CutOffAtTaggedCommit | src/action.js:83-86 | for newer + [tagged] + older with no tagged hash in newer, exactly newer is returned, without the tagged commit |
| Text.RemoveFirst | src/action.js:131 | without an occurrence of the prefix the name is unchanged; with one, the result is shorter by the prefix's length and putting the prefix back at the first occurrence rebuilds the name; a name that starts with the prefix loses exactly its first characters |
| Text.ToLower | src/ver.js:17 | the length is kept, no ASCII upper-case letter is left, each one becomes the letter 32 code points above it, and every other character is kept |
| Classifier.HasBreakingLine | src/ver.js:2 | the test succeeds exactly when at some position that starts a line (index 0 or after LF, CR, U+2028, U+2029) the text continues with "BREAKING CHANGE: " |
| Classifier.BreakingFrom | src/ver.js:11 | trying the regular expression at every position from a start on succeeds exactly when a breaking line starts at one of those positions |
| Classifier.TypeToken | src/ver.js:1 | a returned type is a non-empty run of word characters that the message begins with, followed by ": "; with no type, no non-empty word-run prefix of the message is followed by ": " |
| Classifier.WordRun | src/ver.js:1 | the word run at the start has maximal length: every character in it is a word character, and the next one is not |
| Classifier.TypeTokenMatchesRegex | src/ver.js:1 | the type is t exactly when t is a non-empty run of word characters and the message begins with t followed by ": " |
| Classifier.ScopedHeaderHasNoType | src/ver.js:1 | a message of the form `type(...` has no type |
| Classifier.SingleLineBreaking | src/ver.js:2 | a message without line terminators is breaking exactly when it begins with "BREAKING CHANGE: " |
| Classifier.MarkerOnLaterLine | src/ver.js:2 | the marker counts at the start of any line, not only the first |
| Classifier.MarkerIsCaseSensitive | src/ver.js:2 | "breaking change: ..." on one line is not breaking |
| Classifier.TypeIgnoresCase | src/ver.js:15-17 | "FIX: ..." has type fix, and on its own it gives a patch release |
| Classifier.TypeTokens | src/ver.js:14-17 | at most one token per commit, and no token is empty; `Classifier.TokensHoldType` states which kinds the list holds |
| Classifier.Step | src/ver.js:19-23 | the step never lowers the severity; from -1 upwards it is the maximum of the severity so far and the token's own (1 for `feat`, 0 for `fix`, -1 for anything else); it changes the severity only to 1 on `feat` or to 0 on `fix` |
| Classifier.Reduce | src/ver.js:18-24 | the accumulator never decreases, and the fold ends at its start value, 0 or 1 |
| Classifier.ReduceIsMax | src/ver.js:18-24 | from a start value of at least -1, the fold is the maximum of that value and the severity (1 with any feat, else 0 with any fix, else -1) |
| Classifier.TokensHoldType | src/ver.js:14-17 | the lower-cased token list holds a kind exactly when some commit's message has that type |
| Classifier.DetermineReleaseType | src/ver.js:10-28 | the result is major with any breaking line, else minor with any feat, else patch with any fix, else null |
| Classifier.BreakingForcesMajor | src/ver.js:11-12 | one breaking line in any message gives major, whatever the other commits contain |
| Classifier.EmptyIsNoRelease | src/ver.js:14-26 | no commits give null |
| Classifier.FeatGivesMinor | src/ver.js:20 | without a breaking line, any feat gives minor, whatever fix commits there are and wherever they sit |
| Classifier.FixGivesPatch | src/ver.js:21 | without a breaking line or a feat, any fix gives patch |
| Classifier.NoReleaseExactly | src/action.js:94-112 | the copy in the action gives null exactly when there is no breaking line, no feat and no fix |
| Classifier.OrderDoesNotMatter | src/ver.js:14-24 | two commit lists with the same elements (as multisets) give the same release type |
| Tags.KeepPrefixed | src/action.js:40-43 | the filter keeps at most the page; a page whose names all start with the prefix is kept whole, and one where none does is dropped |
| Tags.KeptExactly | src/action.js:40-43 | a tag survives the filter exactly when it is on the page and its name starts with the prefix |
| Tags.ListTags | src/action.js:28-46 | the accumulation is what it was given followed by the in-order concatenation of the filtered pages before the first empty page |
| Tags.CandidateMembership | src/action.js:38-48 | a tag is accumulated exactly when it is on a page before the first empty page and starts with the prefix |
| Tags.VersionText | src/action.js:51 | for a name that starts with the prefix, `replace(prefix, '')` drops exactly as many leading characters as the prefix has |
| Tags.LastMaxIndex | src/action.js:53 | the chosen position holds a version at least every other one, and strictly above every version after it: of several equal maxima it is the last, as the stable sort leaves them |
| Tags.Latest | src/action.js:53 | the chosen tag is one of the candidates, and its version is at least every candidate's version |
| Tags.FindLatestTag | src/action.js:27-55 | null exactly when no tag before the first empty page starts with the prefix; otherwise a candidate that starts with the prefix, of maximal version |
| Tags.StrictMaximumIsChosen | src/action.js:53 | a candidate whose version is strictly above every other candidate's is the tag returned |
| Action.TagPrefix | src/action.js:126 | the prefix is the package name followed by exactly one "@" |
| Action.Run | src/action.js:126-167 | the next tag is the prefix `name@` followed by the next version. With no tag, the next version is the manifest's. With a tag, the next version is strictly above every candidate's version. An early return happens only when a tag exists |
| Action.RunWithoutTag | src/action.js:134-155 | with no matching tag, the outputs are null, null, the manifest version and name@ followed by it, whatever the history |
| Action.RunNoRelease | src/action.js:142-150 | with a latest tag, the run sets no output exactly when the commits since its commit give null |
| Action.RunRelease | src/action.js:142-155 | with a latest tag and release type t, the next version reads as the tag's version incremented by t, and the next tag is the prefix followed by it |

The copy of `determineReleaseType` in `src/action.js:94-112` has the same constants and body as
the one in `src/ver.js:10-28`; only the declaration differs. One set of members models both.

## Left out

- `src/gh.js` and `src/pkg.js` are not part of this model. They are the GraphQL tag and commit
  queries and the reading of `package.json`.
- The REST and GraphQL calls of `src/action.js` (lines 30-34, 60-80) are replaced by their results.
  The tag listing is the sequence `pages`; page numbers past its end answer with an empty page.
  The commit query is the newest-first sequence `history`. What page numbers mean to the API is
  not modelled.
- `@actions/core` inputs, outputs and failure signalling, console logging, and the async plumbing
  are not modelled. The `catch` that turns any exception into a failed run is not modelled either.
- Tags.FindLatestTag: it requires every accumulated tag to carry a plain `X.Y.Z` version, so it
  does not model the `semver` library on other texts. With two or more candidates, only a text
  that `semver` cannot parse (say `latest`) makes the comparison throw. Texts that `semver`
  accepts but that are not plain `X.Y.Z` (a leading `v`, pre-release or build parts, surrounding
  whitespace) are compared and incremented by the library; they are left out as the "SemVer.Inc:"
  line says. With a single candidate the sort calls no comparator and the tag is returned
  whatever its text.
- Action.Run: it requires the same of the package's tags, so every listing that holds a prefixed
  tag other than a plain `X.Y.Z` version is left out, whether `semver` accepts the text or not.
  This includes a listing whose only prefixed tag carries no valid version (say `pkg@latest`),
  where the code does not throw. If the commits since that tag call for no release, the run
  returns early as with any tag. If they call for a release, the `semver` increment returns
  `null` for the invalid version, and the code sets `latestVersion` to `latest`, `nextVersion`
  to `null` and `nextTag` to `pkg@null`. The model produces neither outcome.
- SemVer.Inc: it covers only plain `X.Y.Z` versions. It leaves out pre-release and build parts,
  a leading `v`, loose parsing, whitespace trimming and the `Number.MAX_SAFE_INTEGER` bound.
- Tags.Latest: its contract states only that the tag is a candidate of maximal version. Which of
  several equal-version tags is taken is stated on positions by `Tags.LastMaxIndex`.
- `toLocaleLowerCase` is modelled as ASCII lower-casing. Locales with other rules, such as
  Turkish dotless i, are left out. The type token holds only ASCII word characters.
- JavaScript strings are UTF-16 code units; the model's strings are sequences of characters.
- A manifest without `name` or `version` is not modelled. The code would interpolate
  `undefined`; the model takes both fields as strings.
- There is no changelog rendering in the modelled files, so none is modelled.

=== FILE: action.dfy ===
/**
 The main body of the action: the tag prefix from the package name, the
 latest tag, the commits since it, and the next version and tag, or an early
 return when the commits call for no release.
 */
module Action {
  import opened Wrappers
  import opened Text
  import opened SemVer
  import opened History
  import opened Classifier
  import opened Tags

  /** The two fields read from the package manifest. */
  datatype Manifest = Manifest(name: string, version: string)

  /** The four values set as outputs; None stands for `null`. */
  datatype Outputs = Outputs(latestVersion: Option<string>, latestTag: Option<string>, nextVersion: string, nextTag: string)

  /** The tag prefix: the package name followed by `@`. */
  function TagPrefix(name: string): (p: string)
    ensures StartsWith(p, name) && |p| == |name| + 1 && p[|name|] == '@'
  {
    name + "@"
  }

  /** The tags of the package in the listing: every one must carry a plain X.Y.Z version. */
  predicate TagsHaveVersions(manifest: Manifest, pages: seq<seq<Tag>>) {
    AllHaveVersions(TagPrefix(manifest.name), ListTags(TagPrefix(manifest.name), pages, []))
  }

  /**
   One run. `pages` is the tag listing page by page and `history` the
   newest-first commits of the package directory at the current ref. None is
   the early return that sets no output.
   */
  function Run(manifest: Manifest, pages: seq<seq<Tag>>, history: seq<Commit>): (r: Option<Outputs>)
    requires TagsHaveVersions(manifest, pages)
    ensures r.Some? ==> r.value.nextTag == TagPrefix(manifest.name) + r.value.nextVersion
    ensures r.Some? ==> (r.value.latestTag.None? <==> r.value.latestVersion.None?)
    ensures r.Some? && r.value.latestTag.None? ==>
      r.value.nextVersion == manifest.version && ListTags(TagPrefix(manifest.name), pages, []) == []
    ensures r.Some? && r.value.latestTag.Some? ==> Parse(r.value.nextVersion).Some?
    ensures r.Some? && r.value.latestTag.Some? ==>
      forall t :: t in ListTags(TagPrefix(manifest.name), pages, []) ==>
        Less(VersionOf(TagPrefix(manifest.name), t), Parse(r.value.nextVersion).value)
    ensures r.None? ==> ListTags(TagPrefix(manifest.name), pages, []) != []
  {
    var prefix := TagPrefix(manifest.name);
    match FindLatestTag(prefix, pages)
    case None =>
      Some(Outputs(None, None, manifest.version, prefix + manifest.version))
    case Some(tag) =>
      var latestVersion := VersionText(prefix, tag);
      match DetermineReleaseType(CommitsSince(history, tag.sha))
      case None => None
      case Some(releaseType) =>
        var latest := VersionOf(prefix, tag);
        var next := Inc(latest, releaseType);
        var nextVersion := Render(next);
        assert forall t :: t in ListTags(prefix, pages, []) ==> Less(VersionOf(prefix, t), next) by {
          forall t | t in ListTags(prefix, pages, [])
            ensures Less(VersionOf(prefix, t), next)
          {
            CompareIsTotalOrder(VersionOf(prefix, t), latest, next);
          }
        }
        Some(Outputs(Some(latestVersion), Some(tag.name), nextVersion, prefix + nextVersion))
  }

  /** With no tag of the package, the next version is the manifest's and the commit history is not consulted. */
  lemma RunWithoutTag(manifest: Manifest, pages: seq<seq<Tag>>, history: seq<Commit>, other: seq<Commit>)
    requires TagsHaveVersions(manifest, pages)
    requires forall i, t :: 0 <= i < FirstEmptyPage(pages) && t in pages[i] ==> !StartsWith(t.name, TagPrefix(manifest.name))
    ensures Run(manifest, pages, history) ==
      Some(Outputs(None, None, manifest.version, TagPrefix(manifest.name) + manifest.version))
    ensures Run(manifest, pages, history) == Run(manifest, pages, other)
  {
  }

  /** With a latest tag, the run returns early exactly when the commits since its commit call for no release. */
  lemma RunNoRelease(manifest: Manifest, pages: seq<seq<Tag>>, history: seq<Commit>, tag: Tag)
    requires TagsHaveVersions(manifest, pages)
    ensures FindLatestTag(TagPrefix(manifest.name), pages) == Some(tag) ==>
      (Run(manifest, pages, history).None? <==> DetermineReleaseType(CommitsSince(history, tag.sha)) == None)
  {
  }

  /**
   With a latest tag and a release type, the next version is the latest
   version incremented by that type, and the next tag is the prefix followed by it.
   */
  lemma RunRelease(manifest: Manifest, pages: seq<seq<Tag>>, history: seq<Commit>, tag: Tag, releaseType: ReleaseType)
    requires TagsHaveVersions(manifest, pages)
    ensures var prefix := TagPrefix(manifest.name);
      FindLatestTag(prefix, pages) == Some(tag) &&
      DetermineReleaseType(CommitsSince(history, tag.sha)) == Some(releaseType) ==>
        var r := Run(manifest, pages, history);
        && r.Some?
        && r.value.latestTag == Some(tag.name)
        && r.value.latestVersion == Some(tag.name[|prefix|..])
        && Parse(r.value.nextVersion) == Some(Inc(VersionOf(prefix, tag), releaseType))
        && r.value.nextTag == prefix + r.value.nextVersion
  {
  }
}

=== FILE: classifier.dfy ===
/**
 `determineReleaseType`: the release type a list of commits calls for, from
 the breaking-change marker and the leading `type: ` token of each message.
 */
module Classifier {
  import opened Wrappers
  import opened Text
  import opened SemVer
  import opened History

  /** The literal of COMMIT_MESSAGE_BREAKING_CHANGE, `/^BREAKING CHANGE: /m`. */
  const BreakingMarker: string := "BREAKING CHANGE: "

  /** RELEASE_TYPES, indexed by the folded severity. */
  const ReleaseTypes: seq<ReleaseType> := [Patch, Minor, Major]

  /** The characters after which `^` matches in a multiline regular expression. */
  predicate IsLineTerminator(c: char) {
    c == '\n' || c == '\r' || c == '\U{2028}' || c == '\U{2029}'
  }

  /** Position `i` is where `^` matches under the `m` flag: the start, or just after a line terminator. */
  predicate IsLineStart(s: string, i: nat)
    requires i <= |s|
  {
    i == 0 || IsLineTerminator(s[i - 1])
  }

  /** The marker, in this letter case, begins the line that starts at position `i`. */
  predicate BreakingLineAt(message: string, i: nat)
    requires i <= |message|
  {
    IsLineStart(message, i) && StartsWith(message[i..], BreakingMarker)
  }

  /** The search of the breaking-change regular expression, tried at each position from `from` on. */
  function BreakingFrom(message: string, from: nat): (b: bool)
    requires from <= |message|
    ensures b <==> exists i :: from <= i <= |message| && BreakingLineAt(message, i)
    decreases |message| - from
  {
    if BreakingLineAt(message, from) then true
    else if from == |message| then false
    else BreakingFrom(message, from + 1)
  }

  /** The breaking-change test of a message: some line begins with the marker, in this letter case. */
  function HasBreakingLine(message: string): (b: bool)
    ensures b <==> exists i :: 0 <= i <= |message| && BreakingLineAt(message, i)
  {
    BreakingFrom(message, 0)
  }

  /** `\w` without the `u` flag: ASCII letters, digits and the underscore. */
  predicate IsWordChar(c: char) {
    ('a' <= c <= 'z') || ('A' <= c <= 'Z') || ('0' <= c <= '9') || c == '_'
  }

  /** A possible capture of `(\w+)`: a non-empty run of word characters. */
  predicate IsTypeWord(t: string) {
    |t| > 0 && forall k :: 0 <= k < |t| ==> IsWordChar(t[k])
  }

  /** Length of the run of word characters that `s` begins with. */
  function WordRun(s: string): (n: nat)
    ensures n <= |s|
    ensures forall k :: 0 <= k < n ==> IsWordChar(s[k])
    ensures n < |s| ==> !IsWordChar(s[n])
    decreases |s|
  {
    if |s| > 0 && IsWordChar(s[0]) then 1 + WordRun(s[1..]) else 0
  }

  /**
   The group captured by the type regular expression COMMIT_TYPE_PREFIX: the
   greedy word run at the very start of the message, when a colon and a space follow it.
   */
  function TypeToken(message: string): (r: Option<string>)
    ensures r.Some? ==> IsTypeWord(r.value) && StartsWith(message, r.value + ": ")
    ensures r.None? ==> forall k :: 0 < k <= |message| - 2 && IsTypeWord(message[..k]) ==> message[k..k + 2] != ": "
  {
    var n := WordRun(message);
    if 0 < n && n + 2 <= |message| && message[n..n + 2] == ": " then
      assert (message[..n] + ": ") == message[..n + 2];
      Some(message[..n])
    else
      assert forall k :: 0 < k <= |message| - 2 && IsTypeWord(message[..k]) ==> message[k..k + 2] != ": " by {
        forall k | 0 < k <= |message| - 2 && IsTypeWord(message[..k])
          ensures message[k..k + 2] != ": "
        {
          if k < n {
            assert message[k..k + 2][0] == message[k];
          }
        }
      }
      None
  }

  /**
   The regular expression matches exactly when the message begins with a word
   run followed by `: `; there is no scope group and no match past the start.
   */
  lemma TypeTokenMatchesRegex(message: string, t: string)
    ensures TypeToken(message) == Some(t) <==> IsTypeWord(t) && StartsWith(message, t + ": ")
  {
    if IsTypeWord(t) && StartsWith(message, t + ": ") {
      assert message[|t|] == ':';
      var n := WordRun(message);
      assert n == |t|;
      assert message[..n] == t;
      assert message[n..n + 2] == ": ";
    }
  }

  /** A scoped header such as `feat(ui): x` carries no type token. */
  lemma ScopedHeaderHasNoType(t: string, rest: string)
    requires IsTypeWord(t)
    ensures TypeToken(t + "(" + rest) == None
  {
    var m := t + "(" + rest;
    assert m[..|t|] == t;
    assert m[|t|] == '(';
    assert forall k :: 0 <= k < |t| ==> m[k] == t[k];
  }

  /** The message's type, lower-cased as the code does, is `kind`. */
  predicate HasType(message: string, kind: string) {
    TypeToken(message).Some? && ToLower(TypeToken(message).value) == kind
  }

  /** The lower-cased tokens of the messages that match, in commit order (the map, filter, map chain). */
  function TypeTokens(commits: seq<Commit>): (r: seq<string>)
    ensures |r| <= |commits|
    ensures forall k :: 0 <= k < |r| ==> r[k] != ""
    decreases |commits|
  {
    if |commits| == 0 then []
    else
      match TypeToken(commits[0].message)
      case None => TypeTokens(commits[1..])
      case Some(t) => [ToLower(t)] + TypeTokens(commits[1..])
  }

  /** One step of the reduce: `feat` raises the severity to at least 1, `fix` to at least 0. */
  function Step(acc: int, token: string): (r: int)
    ensures acc <= r
    ensures -1 <= acc ==> r == Max(acc, MaxSeverity([token]))
    ensures r != acc ==> (token == "feat" && r == 1) || (token == "fix" && r == 0)
  {
    if token == "feat" then (if acc < 1 then 1 else acc)
    else if token == "fix" then (if acc < 0 then 0 else acc)
    else acc
  }

  /** The left fold of `Step` over the tokens. */
  function Reduce(acc: int, tokens: seq<string>): (r: int)
    ensures acc <= r
    ensures r == acc || r == 0 || r == 1
    decreases |tokens|
  {
    if |tokens| == 0 then acc else Reduce(Step(acc, tokens[0]), tokens[1..])
  }

  /** The severity the tokens call for on their own: 1 with any `feat`, else 0 with any `fix`, else -1. */
  function MaxSeverity(tokens: seq<string>): int {
    if "feat" in tokens then 1 else if "fix" in tokens then 0 else -1
  }

  function Max(a: int, b: int): int {
    if a < b then b else a
  }

  /** From any start value at or above -1, the fold computes the maximum of that value and the tokens' severity. */
  lemma {:induction false} ReduceIsMax(acc: int, tokens: seq<string>)
    requires -1 <= acc
    ensures Reduce(acc, tokens) == Max(acc, MaxSeverity(tokens))
    decreases |tokens|
  {
    if |tokens| > 0 {
      var rest := tokens[1..];
      ReduceIsMax(Step(acc, tokens[0]), rest);
      assert Reduce(acc, tokens) == Reduce(Step(acc, tokens[0]), rest);
      assert tokens == [tokens[0]] + rest;
      assert "feat" in tokens <==> tokens[0] == "feat" || "feat" in rest;
      assert "fix" in tokens <==> tokens[0] == "fix" || "fix" in rest;
    }
  }

  /** The token list holds `kind` exactly when some commit's message has that type. */
  lemma {:induction false} TokensHoldType(commits: seq<Commit>, kind: string)
    ensures kind in TypeTokens(commits) <==> exists i :: 0 <= i < |commits| && HasType(commits[i].message, kind)
    decreases |commits|
  {
    if |commits| > 0 {
      TokensHoldType(commits[1..], kind);
      if exists i :: 0 <= i < |commits| && HasType(commits[i].message, kind) {
        var i :| 0 <= i < |commits| && HasType(commits[i].message, kind);
        if i > 0 {
          assert commits[1..][i - 1] == commits[i];
        }
      }
      if exists i :: 0 <= i < |commits[1..]| && HasType(commits[1..][i].message, kind) {
        var i :| 0 <= i < |commits[1..]| && HasType(commits[1..][i].message, kind);
        assert commits[i + 1] == commits[1..][i];
      }
    }
  }

  predicate AnyBreaking(commits: seq<Commit>) {
    exists i :: 0 <= i < |commits| && HasBreakingLine(commits[i].message)
  }

  predicate AnyType(commits: seq<Commit>, kind: string) {
    exists i :: 0 <= i < |commits| && HasType(commits[i].message, kind)
  }

  /**
   `determineReleaseType`, with None for `null`. The result is the highest
   release type the commits call for: major with any breaking line, else minor
   with any `feat`, else patch with any `fix`, else none.
   */
  function DetermineReleaseType(commits: seq<Commit>): (r: Option<ReleaseType>)
    ensures r ==
      if AnyBreaking(commits) then Some(Major)
      else if AnyType(commits, "feat") then Some(Minor)
      else if AnyType(commits, "fix") then Some(Patch)
      else None
  {
    if AnyBreaking(commits) then Some(ReleaseTypes[2])
    else
      var t := Reduce(-1, TypeTokens(commits));
      ReduceIsMax(-1, TypeTokens(commits));
      TokensHoldType(commits, "feat");
      TokensHoldType(commits, "fix");
      if t == -1 then None else Some(ReleaseTypes[t])
  }

  /** One breaking line anywhere forces a major release, whatever else the commits say. */
  lemma BreakingForcesMajor(commits: seq<Commit>, i: nat)
    requires i < |commits| && HasBreakingLine(commits[i].message)
    ensures DetermineReleaseType(commits) == Some(Major)
  {
  }

  /** No commits, no release. */
  lemma EmptyIsNoRelease()
    ensures DetermineReleaseType([]) == None
  {
  }

  /** Without a breaking line, one `feat` makes the release minor, however many `fix` commits there are. */
  lemma FeatGivesMinor(commits: seq<Commit>, i: nat)
    requires !AnyBreaking(commits)
    requires i < |commits| && HasType(commits[i].message, "feat")
    ensures DetermineReleaseType(commits) == Some(Minor)
  {
  }

  /** Without a breaking line or a `feat`, one `fix` makes the release a patch. */
  lemma FixGivesPatch(commits: seq<Commit>, i: nat)
    requires !AnyBreaking(commits) && !AnyType(commits, "feat")
    requires i < |commits| && HasType(commits[i].message, "fix")
    ensures DetermineReleaseType(commits) == Some(Patch)
  {
  }

  /** Without a breaking line, `feat` or `fix`, there is no release; and conversely. */
  lemma NoReleaseExactly(commits: seq<Commit>)
    ensures DetermineReleaseType(commits) == None <==>
      !AnyBreaking(commits) && !AnyType(commits, "feat") && !AnyType(commits, "fix")
  {
  }

  /** The release type does not depend on the order of the commits. */
  lemma OrderDoesNotMatter(a: seq<Commit>, b: seq<Commit>)
    requires multiset(a) == multiset(b)
    ensures DetermineReleaseType(a) == DetermineReleaseType(b)
  {
    forall c | c in a ensures c in b {
      assert c in multiset(a);
    }
    forall c | c in b ensures c in a {
      assert c in multiset(b);
    }
    assert AnyBreaking(a) <==> AnyBreaking(b) by {
      if AnyBreaking(a) {
        var i :| 0 <= i < |a| && HasBreakingLine(a[i].message);
        assert a[i] in b;
      }
      if AnyBreaking(b) {
        var i :| 0 <= i < |b| && HasBreakingLine(b[i].message);
        assert b[i] in a;
      }
    }
    forall kind | kind == "feat" || kind == "fix"
      ensures AnyType(a, kind) <==> AnyType(b, kind)
    {
      if AnyType(a, kind) {
        var i :| 0 <= i < |a| && HasType(a[i].message, kind);
        assert a[i] in b;
      }
      if AnyType(b, kind) {
        var i :| 0 <= i < |b| && HasType(b[i].message, kind);
        assert b[i] in a;
      }
    }
  }

  /** A message without line terminators is breaking exactly when it begins with the marker. */
  lemma SingleLineBreaking(message: string)
    requires forall k :: 0 <= k < |message| ==> !IsLineTerminator(message[k])
    ensures HasBreakingLine(message) <==> StartsWith(message, BreakingMarker)
  {
    if HasBreakingLine(message) {
      var i :| 0 <= i <= |message| && BreakingLineAt(message, i);
    } else {
      assert message[0..] == message;
      assert !BreakingLineAt(message, 0);
    }
  }

  /** The type is matched in any letter case: `FIX: ...` is a fix, and alone it makes a patch release. */
  lemma TypeIgnoresCase(id: string, oid: string, description: string)
    requires forall k :: 0 <= k < |description| ==> !IsLineTerminator(description[k])
    ensures HasType("FIX: " + description, "fix")
    ensures DetermineReleaseType([Commit(id, oid, "FIX: " + description)]) == Some(Patch)
  {
    var m := "FIX: " + description;
    TypeTokenMatchesRegex(m, "FIX");
    assert StartsWith(m, "FIX" + ": ");
    assert ToLower("FIX") == "fix";
    assert ToLower("fix") != "feat";
    SingleLineBreaking(m);
    assert !StartsWith(m, BreakingMarker) by {
      assert m[0] != BreakingMarker[0];
    }
    var commits := [Commit(id, oid, m)];
    assert !AnyType(commits, "feat");
    FixGivesPatch(commits, 0);
  }

  /** The marker is matched in its letter case only: `breaking change: ...` on one line is not breaking. */
  lemma MarkerIsCaseSensitive(description: string)
    requires forall k :: 0 <= k < |description| ==> !IsLineTerminator(description[k])
    ensures !HasBreakingLine("breaking change: " + description)
  {
    var m := "breaking change: " + description;
    SingleLineBreaking(m);
    assert m[0] != BreakingMarker[0];
  }

  /** The marker is found on any line, not only the first. */
  lemma MarkerOnLaterLine(head: string, tail: string)
    ensures HasBreakingLine(head + "\n" + BreakingMarker + tail)
  {
    var m := head + "\n" + BreakingMarker + tail;
    var i := |head| + 1;
    assert IsLineStart(m, i);
    assert m[i..][..|BreakingMarker|] == BreakingMarker;
    assert BreakingLineAt(m, i);
  }
}

=== FILE: history.dfy ===
/**
 The commit history of the package directory as the action reads it: a
 newest-first list of commits, cut off at the commit the latest tag points to.
 */
module History {

  /** A history node: GraphQL node id, commit hash (`oid`) and message. */
  datatype Commit = Commit(id: string, oid: string, message: string)

  /**
   `r` is the newest part of `history` above its first commit whose hash is
   `sha`: a prefix of `history` holding no commit with that hash, which ends
   right before such a commit or else runs to the end of the history.
   */
  predicate IsCutOff(history: seq<Commit>, sha: string, r: seq<Commit>) {
    && |r| <= |history|
    && r == history[..|r|]
    && (forall i :: 0 <= i < |r| ==> r[i].oid != sha)
    && (|r| == |history| || history[|r|].oid == sha)
  }

  /** At most one list is the cut-off of a history at a hash. */
  lemma CutOffIsUnique(history: seq<Commit>, sha: string, r1: seq<Commit>, r2: seq<Commit>)
    requires IsCutOff(history, sha, r1) && IsCutOff(history, sha, r2)
    ensures r1 == r2
  {
  }

  /** The commits since the tagged commit, as a function of the history. */
  function CommitsSince(history: seq<Commit>, sha: string): (r: seq<Commit>)
    ensures IsCutOff(history, sha, r)
    decreases |history|
  {
    if |history| == 0 || history[0].oid == sha then []
    else [history[0]] + CommitsSince(history[1..], sha)
  }

  /** The `for ... break` loop of `getCommits` over the history the query returned. */
  method GetCommits(allCommits: seq<Commit>, latestTagSha: string) returns (commits: seq<Commit>)
    ensures IsCutOff(allCommits, latestTagSha, commits)
  {
    commits := [];
    var i := 0;
    while i < |allCommits|
      invariant 0 <= i <= |allCommits|
      invariant commits == allCommits[..i]
      invariant forall k :: 0 <= k < i ==> allCommits[k].oid != latestTagSha
    {
      if allCommits[i].oid == latestTagSha {
        break;
      }
      commits := commits + [allCommits[i]];
      i := i + 1;
    }
  }

  /** When the tagged commit is not in the history, the whole history is taken. */
  lemma CutOffWithoutTaggedCommit(history: seq<Commit>, sha: string)
    requires forall i :: 0 <= i < |history| ==> history[i].oid != sha
    ensures CommitsSince(history, sha) == history
  {
  }

  /** When the tagged commit is in the history, exactly the commits above its first occurrence are taken. */
  lemma CutOffAtTaggedCommit(newer: seq<Commit>, tagged: Commit, older: seq<Commit>)
    requires forall i :: 0 <= i < |newer| ==> newer[i].oid != tagged.oid
    ensures CommitsSince(newer + [tagged] + older, tagged.oid) == newer
  {
    var history := newer + [tagged] + older;
    assert history[..|newer|] == newer;
    CutOffIsUnique(history, tagged.oid, CommitsSince(history, tagged.oid), newer);
  }
}

=== FILE: semver.dfy ===
/**
 The part of Semantic Versioning 2.0.0 the action uses through its `semver`
 dependency: versions of the plain form X.Y.Z, their precedence (section 11),
 the patch/minor/major increments (sections 6-8), and the decimal text form
 with non-negative integers without leading zeroes (section 2).
 */
module SemVer {
  import opened Wrappers
  import opened Text

  datatype Version = Version(major: nat, minor: nat, patch: nat)

  /** The entries of RELEASE_TYPES, lowest to highest. */
  datatype ReleaseType = Patch | Minor | Major

  /** `semver.compare`: -1, 0 or 1 as `a` has lower, equal or higher precedence than `b`. */
  function Compare(a: Version, b: Version): (c: int)
    ensures c == -1 || c == 0 || c == 1
    ensures c == 0 <==> a == b
  {
    if a.major != b.major then (if a.major < b.major then -1 else 1)
    else if a.minor != b.minor then (if a.minor < b.minor then -1 else 1)
    else if a.patch != b.patch then (if a.patch < b.patch then -1 else 1)
    else 0
  }

  predicate Less(a: Version, b: Version) {
    Compare(a, b) < 0
  }

  predicate LessEq(a: Version, b: Version) {
    Compare(a, b) <= 0
  }

  /** Precedence is a total order: swapping the arguments negates the comparison, and it is transitive. */
  lemma CompareIsTotalOrder(a: Version, b: Version, c: Version)
    ensures Compare(b, a) == -Compare(a, b)
    ensures LessEq(a, b) || LessEq(b, a)
    ensures LessEq(a, b) && LessEq(b, c) ==> LessEq(a, c)
    ensures LessEq(a, b) && Less(b, c) ==> Less(a, c)
  {
  }

  /** The `semver` increment on a version without pre-release or build parts. */
  function Inc(v: Version, t: ReleaseType): (r: Version)
    ensures Less(v, r)
  {
    match t
    case Patch => Version(v.major, v.minor, v.patch + 1)
    case Minor => Version(v.major, v.minor + 1, 0)
    case Major => Version(v.major + 1, 0, 0)
  }

  /** `w` changes `v` in the component named by `t` or in one above it. */
  predicate ChangesAtOrAbove(v: Version, w: Version, t: ReleaseType) {
    match t
    case Patch => w != v
    case Minor => w.major != v.major || w.minor != v.minor
    case Major => w.major != v.major
  }

  /**
   The increment is the least version above `v` that changes the component
   named by `t` (or a higher one): so the lower components are reset to zero
   and the named one goes up by exactly one.
   */
  lemma IncIsLeastBump(v: Version, t: ReleaseType, w: Version)
    ensures ChangesAtOrAbove(v, Inc(v, t), t)
    ensures Less(v, w) && ChangesAtOrAbove(v, w, t) ==> LessEq(Inc(v, t), w)
  {
  }

  predicate IsDigit(c: char) {
    '0' <= c <= '9'
  }

  function DigitChar(d: nat): (c: char)
    requires d < 10
    ensures IsDigit(c)
  {
    ('0' as int + d) as char
  }

  function DigitValue(c: char): (d: nat)
    requires IsDigit(c)
    ensures d < 10
  {
    c as int - '0' as int
  }

  /** A numeric identifier of section 2: `0`, or a non-empty digit string that does not start with `0`. */
  predicate IsNumeral(s: string) {
    && |s| > 0
    && (forall i :: 0 <= i < |s| ==> IsDigit(s[i]))
    && (s[0] == '0' ==> |s| == 1)
  }

  /** Value of a digit string read in base ten. */
  function DecimalValue(s: string): nat
    requires forall i :: 0 <= i < |s| ==> IsDigit(s[i])
  {
    if |s| == 0 then 0 else DecimalValue(s[..|s| - 1]) * 10 + DigitValue(s[|s| - 1])
  }

  /** Decimal text of a natural number, without leading zeroes. */
  function Decimal(n: nat): string
    decreases n
  {
    if n < 10 then [DigitChar(n)] else Decimal(n / 10) + [DigitChar(n % 10)]
  }

  /** The decimal text of `n` is a numeral and reads back as `n`. */
  lemma {:induction false} DecimalIsNumeral(n: nat)
    ensures IsNumeral(Decimal(n))
    ensures DecimalValue(Decimal(n)) == n
    decreases n
  {
    if n >= 10 {
      DecimalIsNumeral(n / 10);
      var s := Decimal(n);
      assert s[..|s| - 1] == Decimal(n / 10);
    }
  }

  /** A numeral with a leading non-zero digit has a positive value. */
  lemma {:induction false} LeadingNonZeroIsPositive(s: string)
    requires |s| > 0 && forall i :: 0 <= i < |s| ==> IsDigit(s[i])
    requires s[0] != '0'
    ensures DecimalValue(s) >= 1
    decreases |s|
  {
    if |s| > 1 {
      LeadingNonZeroIsPositive(s[..|s| - 1]);
    }
  }

  /** Every numeral is the decimal text of its value. */
  lemma {:induction false} NumeralIsDecimal(s: string)
    requires IsNumeral(s)
    ensures Decimal(DecimalValue(s)) == s
    decreases |s|
  {
    if |s| > 1 {
      var init := s[..|s| - 1];
      assert IsNumeral(init);
      NumeralIsDecimal(init);
      LeadingNonZeroIsPositive(init);
      var n := DecimalValue(s);
      assert n / 10 == DecimalValue(init);
      assert n % 10 == DigitValue(s[|s| - 1]);
    }
  }

  /** The three numbers in decimal joined by dots: the text the `semver` increment returns. It reads back as the version it renders. */
  function Render(v: Version): (r: string)
    ensures Parse(r) == Some(v)
  {
    DecimalIsNumeral(v.major);
    DecimalIsNumeral(v.minor);
    DecimalIsNumeral(v.patch);
    ParseJoin(Decimal(v.major), Decimal(v.minor), Decimal(v.patch));
    Decimal(v.major) + "." + Decimal(v.minor) + "." + Decimal(v.patch)
  }

  /** Strict reading of a plain `X.Y.Z` version; None for anything else. */
  function Parse(s: string): Option<Version> {
    match IndexOf(s, ".")
    case None => None
    case Some(i) =>
      var rest := s[i + 1..];
      match IndexOf(rest, ".")
      case None => None
      case Some(j) =>
        var x, y, z := s[..i], rest[..j], rest[j + 1..];
        if IsNumeral(x) && IsNumeral(y) && IsNumeral(z)
        then Some(Version(DecimalValue(x), DecimalValue(y), DecimalValue(z)))
        else None
  }

  /** When a text begins with a numeral followed by a dot, that dot is its first one. */
  lemma FirstDot(s: string, n: nat)
    requires n < |s| && IsNumeral(s[..n]) && s[n] == '.'
    ensures IndexOf(s, ".") == Some(n)
  {
    assert StartsWith(s[n..], ".");
    forall k | 0 <= k < n
      ensures !StartsWith(s[k..], ".")
    {
      assert s[k] == s[..n][k];
    }
  }

  /** The reading of a text whose first dot is at `i` and whose next dot is `j` places after it. */
  lemma ParseAt(s: string, i: nat, j: nat)
    requires IndexOf(s, ".") == Some(i) && IndexOf(s[i + 1..], ".") == Some(j)
    ensures var x, y, z := s[..i], s[i + 1..][..j], s[i + 1..][j + 1..];
      Parse(s) == if IsNumeral(x) && IsNumeral(y) && IsNumeral(z)
        then Some(Version(DecimalValue(x), DecimalValue(y), DecimalValue(z)))
        else None
  {
  }

  /** Three numerals joined by dots read as the version of their values. */
  lemma ParseJoin(x: string, y: string, z: string)
    requires IsNumeral(x) && IsNumeral(y) && IsNumeral(z)
    ensures Parse(x + "." + y + "." + z) == Some(Version(DecimalValue(x), DecimalValue(y), DecimalValue(z)))
  {
    var s := x + "." + y + "." + z;
    var rest := s[|x| + 1..];
    assert s[..|x|] == x;
    assert rest == y + "." + z;
    assert rest[..|y|] == y;
    assert rest[|y| + 1..] == z;
    FirstDot(s, |x|);
    FirstDot(rest, |y|);
    ParseAt(s, |x|, |y|);
  }

  /** Rendering the values of three numerals gives back the numerals joined by dots. */
  lemma RenderNumerals(x: string, y: string, z: string)
    requires IsNumeral(x) && IsNumeral(y) && IsNumeral(z)
    ensures Render(Version(DecimalValue(x), DecimalValue(y), DecimalValue(z))) == x + "." + y + "." + z
  {
    NumeralIsDecimal(x);
    NumeralIsDecimal(y);
    NumeralIsDecimal(z);
  }

  /** A text that reads as a version is three numerals joined by dots, read as their values. */
  lemma ParsedParts(s: string) returns (x: string, y: string, z: string)
    requires Parse(s).Some?
    ensures IsNumeral(x) && IsNumeral(y) && IsNumeral(z)
    ensures s == x + "." + y + "." + z
    ensures Parse(s) == Some(Version(DecimalValue(x), DecimalValue(y), DecimalValue(z)))
  {
    var i := IndexOf(s, ".").value;
    var rest := s[i + 1..];
    var j := IndexOf(rest, ".").value;
    x, y, z := s[..i], rest[..j], rest[j + 1..];
    ParseAt(s, i, j);
    assert s[i..][..1] == "." && rest[j..][..1] == ".";
    TwoDots(s, i, j);
  }

  /** A text with a dot at `i` and another `j` places after it is its three parts joined by dots. */
  lemma TwoDots(s: string, i: nat, j: nat)
    requires i + 1 + j < |s| && s[i] == '.' && s[i + 1 + j] == '.'
    ensures s == s[..i] + "." + s[i + 1..][..j] + "." + s[i + 1..][j + 1..]
  {
    var rest := s[i + 1..];
    assert rest == rest[..j] + "." + rest[j + 1..];
    assert s == s[..i] + "." + rest;
  }

  /** A text that reads as a version is exactly that version's rendering. */
  lemma RenderParse(s: string)
    requires Parse(s).Some?
    ensures Render(Parse(s).value) == s
  {
    var x, y, z := ParsedParts(s);
    RenderNumerals(x, y, z);
  }
}

=== FILE: tags.dfy ===
/**
 `findLatestTag`: the tags of the package, gathered page by page until the
 first empty page, and the one whose version (the name without the prefix)
 has the highest precedence.
 */
module Tags {
  import opened Wrappers
  import opened Text
  import opened SemVer

  /** A tag as the tag listing returns it: its name and the hash of the commit it points to. */
  datatype Tag = Tag(name: string, sha: string)

  /** The tags of one page whose names start with the prefix, in page order. */
  function KeepPrefixed(prefix: string, page: seq<Tag>): (r: seq<Tag>)
    ensures |r| <= |page|
    ensures (forall k :: 0 <= k < |page| ==> StartsWith(page[k].name, prefix)) ==> r == page
    ensures (forall k :: 0 <= k < |page| ==> !StartsWith(page[k].name, prefix)) ==> r == []
    decreases |page|
  {
    if |page| == 0 then []
    else (if StartsWith(page[0].name, prefix) then [page[0]] else []) + KeepPrefixed(prefix, page[1..])
  }

  /** A tag survives the filter exactly when it is on the page and its name starts with the prefix. */
  lemma {:induction false} KeptExactly(prefix: string, page: seq<Tag>, t: Tag)
    ensures t in KeepPrefixed(prefix, page) <==> t in page && StartsWith(t.name, prefix)
    decreases |page|
  {
    if |page| > 0 {
      KeptExactly(prefix, page[1..], t);
      assert page == [page[0]] + page[1..];
    }
  }

  /**
   The recursive `listTags`: `pages[0]` is the response for the
   current page number and the pages after it answer the following numbers;
   numbers past the end of `pages` answer with an empty page. The
   accumulation is what it was given followed by the in-order concatenation
   of the filtered pages before the first empty one.
   */
  function ListTags(prefix: string, pages: seq<seq<Tag>>, tags: seq<Tag>): (r: seq<Tag>)
    ensures r == tags + Candidates(prefix, pages)
    decreases |pages|
  {
    if |pages| == 0 || |pages[0]| == 0 then
      NoCandidatesAtEmptyPage(prefix, pages);
      tags
    else
      var kept := KeepPrefixed(prefix, pages[0]);
      CandidatesUnfold(prefix, pages);
      assert tags + kept + Candidates(prefix, pages[1..]) == tags + (kept + Candidates(prefix, pages[1..]));
      ListTags(prefix, pages[1..], tags + kept)
  }

  /** Index of the first empty page, or the number of pages when none is empty. */
  function FirstEmptyPage(pages: seq<seq<Tag>>): (n: nat)
    ensures n <= |pages|
    ensures forall i :: 0 <= i < n ==> |pages[i]| > 0
    ensures n < |pages| ==> |pages[n]| == 0
    decreases |pages|
  {
    if |pages| == 0 || |pages[0]| == 0 then 0 else 1 + FirstEmptyPage(pages[1..])
  }

  /** The pages joined in order. */
  function Concat(pages: seq<seq<Tag>>): seq<Tag>
    decreases |pages|
  {
    if |pages| == 0 then [] else pages[0] + Concat(pages[1..])
  }

  /** Each page filtered by the prefix. */
  function KeepPrefixedEach(prefix: string, pages: seq<seq<Tag>>): (r: seq<seq<Tag>>)
    ensures |r| == |pages|
    ensures forall i :: 0 <= i < |pages| ==> r[i] == KeepPrefixed(prefix, pages[i])
  {
    seq(|pages|, i requires 0 <= i < |pages| => KeepPrefixed(prefix, pages[i]))
  }

  /** The candidates: the pages before the first empty one, each filtered by the prefix, joined in order. */
  function Candidates(prefix: string, pages: seq<seq<Tag>>): seq<Tag> {
    Concat(KeepPrefixedEach(prefix, pages[..FirstEmptyPage(pages)]))
  }

  /** A tag is in the joined pages exactly when it is in one of them. */
  lemma {:induction false} InConcat(pages: seq<seq<Tag>>, t: Tag)
    ensures t in Concat(pages) <==> exists i :: 0 <= i < |pages| && t in pages[i]
    decreases |pages|
  {
    if |pages| > 0 {
      InConcat(pages[1..], t);
      if exists i :: 0 <= i < |pages| && t in pages[i] {
        var i :| 0 <= i < |pages| && t in pages[i];
        if i > 0 {
          assert pages[1..][i - 1] == pages[i];
        }
      }
      if exists i :: 0 <= i < |pages[1..]| && t in pages[1..][i] {
        var i :| 0 <= i < |pages[1..]| && t in pages[1..][i];
        assert pages[i + 1] == pages[1..][i];
      }
    }
  }

  /** Listing that starts at an empty page has no candidates. */
  lemma NoCandidatesAtEmptyPage(prefix: string, pages: seq<seq<Tag>>)
    requires |pages| == 0 || |pages[0]| == 0
    ensures Candidates(prefix, pages) == []
  {
    assert FirstEmptyPage(pages) == 0;
  }

  /** Before the first empty page, the candidates are the first page's, then the rest's. */
  lemma CandidatesUnfold(prefix: string, pages: seq<seq<Tag>>)
    requires |pages| > 0 && |pages[0]| > 0
    ensures Candidates(prefix, pages) == KeepPrefixed(prefix, pages[0]) + Candidates(prefix, pages[1..])
  {
    var rest := pages[1..];
    var n := FirstEmptyPage(pages);
    assert n == 1 + FirstEmptyPage(rest);
    var each := KeepPrefixedEach(prefix, pages[..n]);
    assert each[0] == KeepPrefixed(prefix, pages[0]);
    assert pages[..n][1..] == rest[..n - 1];
    assert each[1..] == KeepPrefixedEach(prefix, rest[..n - 1]);
    assert Concat(each) == each[0] + Concat(each[1..]);
  }

  /**
   A tag is a candidate exactly when it is on a page before the first empty
   page and its name starts with the prefix.
   */
  lemma CandidateMembership(prefix: string, pages: seq<seq<Tag>>, t: Tag)
    ensures t in ListTags(prefix, pages, []) <==>
      exists i :: 0 <= i < FirstEmptyPage(pages) && t in pages[i] && StartsWith(t.name, prefix)
  {
    var n := FirstEmptyPage(pages);
    var each := KeepPrefixedEach(prefix, pages[..n]);
    InConcat(each, t);
    forall i | 0 <= i < n
      ensures t in each[i] <==> t in pages[i] && StartsWith(t.name, prefix)
    {
      assert pages[..n][i] == pages[i];
      KeptExactly(prefix, pages[i], t);
    }
  }

  /** `getVersion`: the tag name with the first occurrence of the prefix removed. */
  function VersionText(prefix: string, t: Tag): (v: string)
    ensures StartsWith(t.name, prefix) ==> v == t.name[|prefix|..]
  {
    RemoveFirst(t.name, prefix)
  }

  /** The tag's version text is a plain X.Y.Z version. */
  predicate HasVersion(prefix: string, t: Tag) {
    Parse(VersionText(prefix, t)).Some?
  }

  predicate AllHaveVersions(prefix: string, tags: seq<Tag>) {
    forall t :: t in tags ==> HasVersion(prefix, t)
  }

  function VersionOf(prefix: string, t: Tag): Version
    requires HasVersion(prefix, t)
  {
    Parse(VersionText(prefix, t)).value
  }

  /** The versions of the tags, in order. */
  function Versions(prefix: string, tags: seq<Tag>): (vs: seq<Version>)
    requires AllHaveVersions(prefix, tags)
    ensures |vs| == |tags|
    ensures forall i :: 0 <= i < |tags| ==> vs[i] == VersionOf(prefix, tags[i])
  {
    seq(|tags|, i requires 0 <= i < |tags| => VersionOf(prefix, tags[i]))
  }

  /**
   Position of the last element after a stable sort by precedence: a version
   at least every other one, strictly above all that come after it.
   */
  function LastMaxIndex(vs: seq<Version>): (k: nat)
    requires |vs| > 0
    ensures k < |vs|
    ensures forall i :: 0 <= i < |vs| ==> LessEq(vs[i], vs[k])
    ensures forall i :: k < i < |vs| ==> Less(vs[i], vs[k])
    decreases |vs|
  {
    var n := |vs| - 1;
    if n == 0 then 0
    else
      var k := LastMaxIndex(vs[..n]);
      assert forall i :: 0 <= i < n ==> vs[..n][i] == vs[i];
      if LessEq(vs[k], vs[n]) then
        assert forall i :: 0 <= i < n ==> LessEq(vs[i], vs[n]) by {
          forall i | 0 <= i < n
            ensures LessEq(vs[i], vs[n])
          {
            CompareIsTotalOrder(vs[i], vs[k], vs[n]);
          }
        }
        n
      else
        CompareIsTotalOrder(vs[k], vs[n], vs[k]);
        k
  }

  /**
   The tag `findLatestTag` takes after a stable sort of the candidates by
   the precedence of their versions: a tag of highest version, and of several
   such tags the last one.
   */
  function Latest(prefix: string, tags: seq<Tag>): (r: Tag)
    requires |tags| > 0 && AllHaveVersions(prefix, tags)
    ensures r in tags
    ensures forall t :: t in tags ==> LessEq(VersionOf(prefix, t), VersionOf(prefix, r))
  {
    var vs := Versions(prefix, tags);
    var k := LastMaxIndex(vs);
    assert forall t :: t in tags ==> LessEq(VersionOf(prefix, t), vs[k]) by {
      forall t | t in tags
        ensures LessEq(VersionOf(prefix, t), vs[k])
      {
        var i :| 0 <= i < |tags| && tags[i] == t;
        assert vs[i] == VersionOf(prefix, t);
      }
    }
    tags[k]
  }

  /**
   `findLatestTag`: None when no tag matched, otherwise the
   matching tag of highest version among the candidates.
   */
  function FindLatestTag(prefix: string, pages: seq<seq<Tag>>): (r: Option<Tag>)
    requires AllHaveVersions(prefix, ListTags(prefix, pages, []))
    ensures r.None? <==>
      forall i, t :: 0 <= i < FirstEmptyPage(pages) && t in pages[i] ==> !StartsWith(t.name, prefix)
    ensures r.Some? ==> StartsWith(r.value.name, prefix) && r.value in ListTags(prefix, pages, [])
    ensures r.Some? ==> forall t :: t in ListTags(prefix, pages, []) ==>
      LessEq(VersionOf(prefix, t), VersionOf(prefix, r.value))
  {
    var tags := ListTags(prefix, pages, []);
    if |tags| == 0 then
      assert forall i, t :: 0 <= i < FirstEmptyPage(pages) && t in pages[i] ==> !StartsWith(t.name, prefix) by {
        forall i, t | 0 <= i < FirstEmptyPage(pages) && t in pages[i]
          ensures !StartsWith(t.name, prefix)
        {
          CandidateMembership(prefix, pages, t);
        }
      }
      None
    else
      var r := Latest(prefix, tags);
      CandidateMembership(prefix, pages, r);
      assert exists i :: 0 <= i < FirstEmptyPage(pages) && r in pages[i] && StartsWith(r.name, prefix);
      Some(r)
  }

  /** A candidate whose version is strictly above every other candidate's is the one chosen. */
  lemma StrictMaximumIsChosen(prefix: string, pages: seq<seq<Tag>>, b: Tag)
    requires AllHaveVersions(prefix, ListTags(prefix, pages, []))
    requires b in ListTags(prefix, pages, [])
    requires forall t :: t in ListTags(prefix, pages, []) && t != b ==>
      Less(VersionOf(prefix, t), VersionOf(prefix, b))
    ensures FindLatestTag(prefix, pages) == Some(b)
  {
    var r := FindLatestTag(prefix, pages).value;
    if r != b {
      CompareIsTotalOrder(VersionOf(prefix, r), VersionOf(prefix, b), VersionOf(prefix, r));
      assert false;
    }
  }
}

=== FILE: text.dfy ===
/**
 String operations of the JavaScript standard library that the action relies on:
 `startsWith`, the first-occurrence search behind `String.prototype.replace`
 with a string pattern, and lower-casing of ASCII letters.
 */
module Text {
  import opened Wrappers

  /** `s` begins with `p`, as `startsWith` decides. */
  predicate StartsWith(s: string, p: string) {
    |p| <= |s| && s[..|p|] == p
  }

  /** Index of the first occurrence of `p` in `s`, as `indexOf` finds it, with -1 read as None. */
  function IndexOf(s: string, p: string): (r: Option<nat>)
    ensures r.Some? ==> r.value + |p| <= |s| && StartsWith(s[r.value..], p)
    ensures r.Some? ==> forall k :: 0 <= k < r.value ==> !StartsWith(s[k..], p)
    ensures r.None? ==> forall k :: 0 <= k <= |s| ==> !StartsWith(s[k..], p)
    decreases |s|
  {
    if StartsWith(s, p) then Some(0)
    else if |s| == 0 then None
    else
      match IndexOf(s[1..], p)
      case None =>
        assert forall k :: 1 <= k <= |s| ==> s[k..] == s[1..][k - 1..];
        None
      case Some(i) =>
        assert forall k :: 1 <= k <= i + 1 ==> s[k..] == s[1..][k - 1..];
        assert s[i + 1..] == s[1..][i..];
        Some(i + 1)
  }

  /**
   Replacing `p` by the empty string: the first occurrence of `p` is removed,
   and `s` is unchanged when there is none. Putting `p` back where it was
   rebuilds `s`.
   */
  function RemoveFirst(s: string, p: string): (r: string)
    ensures IndexOf(s, p).None? ==> r == s
    ensures IndexOf(s, p).Some? ==>
      var i := IndexOf(s, p).value;
      |r| + |p| == |s| && i <= |r| && r[..i] + p + r[i..] == s
    ensures StartsWith(s, p) ==> r == s[|p|..]
  {
    match IndexOf(s, p)
    case None => s
    case Some(i) => s[..i] + s[i + |p|..]
  }

  /** Lower-case of one character, ASCII letters only. */
  function LowerChar(c: char): char {
    if 'A' <= c <= 'Z' then (c as int - 'A' as int + 'a' as int) as char else c
  }

  /** Lower-casing of a string, restricted to ASCII letters: no upper-case ASCII letter is left, and every other character is kept. */
  function ToLower(s: string): (r: string)
    ensures |r| == |s|
    ensures forall i :: 0 <= i < |r| ==> !('A' <= r[i] <= 'Z')
    ensures forall i :: 0 <= i < |s| && !('A' <= s[i] <= 'Z') ==> r[i] == s[i]
    ensures forall i :: 0 <= i < |s| && 'A' <= s[i] <= 'Z' ==> r[i] as int == s[i] as int + 32
  {
    seq(|s|, i requires 0 <= i < |s| => LowerChar(s[i]))
  }
}

=== FILE: wrappers.dfy ===
/** The optional value the JavaScript code expresses with `null`. */
module Wrappers {

  datatype Option<+T> = None | Some(value: T)
}
